=== FILE: README.md ===
# ngx-ctx-menu placement and menu logic in Dafny

This project models the pure logic under the Angular/Material wiring of the
ngx-ctx-menu popup library. It has three parts:

- **The anchored geometry resolver** `getPosition` (`Geometry`). An anchor is
  either an element's bounding box or a pointer point, which counts as a
  zero-size box. The resolver splits on `position`: beside the anchor
  (left/right/unset) or across it (top/bottom). `alignment` sets one axis.
  On the other axis, for left/top the popup ends `arrowSize + arrowPadding`
  before the anchor's near edge, so its own size is subtracted. For
  right/bottom/unset it starts that far past the anchor's far edge, and
  its size plays no part.
  Each coordinate is then clamped into `[edgePadding, viewport − size]`, max
  first and min last. Coordinates are `real`, so `/2` is exact.
- **The fallback-corner rules** that choose, per axis, `top` or `bottom` and
  `left` or `right`. There are three of them:
  - the pointer rule shared by the context-menu directive and the tooltip
    directive (`Placement`, `ContextMenuDirective`, `TooltipDirective`);
  - the element-anchored app-menu rule (`AppMenuDirective`);
  - the submenu rule anchored to the clicked row (`ContextMenu.SubmenuCorner`).

  Each rule returns a `Corner` of four `Option<real>` offsets.
- **The menu-item model and the activation logic** (`MenuTypes`,
  `ContextMenu`). An item is the string `"separator"`, a labelled separator
  `{label, separator: true}`, or a full item (`BaseCtx`). This part covers:
  - the menu's row-height sum;
  - first-match underline formatting of labels;
  - the per-item annotation done when a menu opens;
  - a click on a row as one pure step, which returns the updated item and the
    effects it performs: calling the children resolver, invoking an action,
    closing the dialog with a result, or opening a child dialog;
  - what a parent menu does when its child dialog closes, including the
    cascade up a chain of open menus.

User callbacks are `CallbackId` values. What `isDisabled`/`isVisible` return
is supplied as an oracle `eval: (CallbackId, Value) -> bool`. What the
children resolver delivers is an input value (`ResolverReply`).
`window.innerWidth`/`innerHeight`, a row's or trigger's bounding box, and the
menu's rendered width are parameters. JavaScript values and truthiness are in
`Js`. The source's field `label` is called `caption` because `label` is a
Dafny keyword.

The model follows what the code does, including where that may surprise a reader:

- An unrecognised non-empty `position` matches neither branch of
  `getPosition`, so neither coordinate is computed. The unit is still
  appended (src/lib/utils.ts:123-124), and the result is
  `{top: "nullpx", left: "nullpx"}`. It is not treated as the default. The
  model's `Coords(None, None)` stands for that result.
- A rejected children resolver leaves `_isResolving` set to `true`, and the
  click handler's promise rejects. Nothing clears the flag.
- The `isDisabled`/`isVisible` callbacks are not guarded. Annotation writes
  their non-inverted result.
- The height sum gives 2 only to the string `"separator"`. A
  `{separator: true}` object counts as a full 24-pixel row.
- `onMenuItemClick` does not look at `_disabled`.
- `ngOnInit` writes its annotations onto the caller's item objects, and
  those objects outlive the menu and are shared with a parent item's
  `children`. The model returns fresh items instead. The difference cannot
  be observed: annotating already-annotated items gives what annotating
  the items as written gives (`ContextMenu.AnnotateLastWins`).
- `calcMenuItemBounds` does not measure every menu. It throws when the menu
  has no full item, since `pop()` then yields `undefined` and its `label` is
  read. It also throws when there are two or more full items and one has no
  label, because the sort compares every row and reads each row's label
  length. A single full item without a label does not throw. An empty menu
  therefore fails to open rather than measuring 0×0. The model keeps the
  throw (`ContextMenu.BoundsThrow`): the directives open nothing, and a
  click whose submenu needs measuring fails after storing the resolved
  children.
- The doc comment on `cacheResolvedChildren` (src/lib/types.ts:81-85) says
  that `true` *disables* caching. The component does the opposite: with
  `true`, existing children are reused and the resolver only runs when there
  are none (src/lib/context-menu/context-menu.component.ts:146). The model
  follows the component (`WantsResolve`). The contradiction is recorded here,
  not resolved.

## Model

| member | source | states |
|---|---|---|
| Geometry.PointerIsZeroSizeElement | src/lib/utils.ts:4-11 | a pointer event is placed exactly like an element whose bounding box is a zero-size box at (clientX, clientY) |
| Geometry.Clamp | src/lib/utils.ts:54-58 | max-then-min clamp: the result never exceeds `limit`; it is at least `pad` when `pad ≤ limit` and equals `limit` otherwise; an in-range value is returned unchanged |
| Geometry.Unclamped | src/lib/utils.ts:23-114 | pre-clamp coordinates exist exactly when the position is unset or one of the four sides |
| Geometry.GetPosition | src/lib/utils.ts:3-127 | each output coordinate is the pre-clamp coordinate clamped into [edgePadding, viewport − size], so `top ≤ winh − height` and `left ≤ winw − width` always hold; an unrecognised position leaves both unset |
| Geometry.OnScreenWhenItFits | src/lib/utils.ts:54-70 | when edgePadding ≤ viewport − size on both axes, both coordinates lie within [edgePadding, viewport − size] |
| Geometry.BesideAlignment | src/lib/utils.ts:24-52 | beside the anchor: start → `top = src.y`; end → bottom edges line up; beforestart → popup ends at `src.y`; afterend → `top = src.y + src.height`; centre or unknown → the popup's midpoint equals the anchor's |
| Geometry.BesideOffset | src/lib/utils.ts:60-65 | left: popup plus arrow ends at `src.x`; right or unset: `left = src.x + src.width + arrow` |
| Geometry.UnsetPositionIsRight | src/lib/utils.ts:63-65 | an unset position gives exactly the result of "right", with `left = src.x + src.width + arrowSize + arrowPadding` before the clamp |
| Geometry.MissingPaddingIsZero | src/lib/utils.ts:56-64 | a missing edgePadding or arrowSize gives the same result as 0 |
| Geometry.AcrossIsTransposedBeside | src/lib/utils.ts:72-120 | top/bottom is the left/right computation with x↔y and width↔height swapped (top ↔ left, bottom ↔ right) |
| Geometry.RightEdgeExample | src/lib/utils.ts:46-70 | a 200×100 popup right of the anchor {700, 10, 50, 20} in an 800×600 viewport, with arrowPadding 8, ends at left 600 (758 pulled back) and top 0 (−30 raised) |
| Geometry.PointerStartIsAfterEnd | src/lib/utils.ts:4-44 | for a pointer anchor, "start" and "afterend" give the same pre-clamp coordinates |
| Placement.PointerCorner | src/lib/ctxmenu.directive.ts:48-54 | exactly one of top/bottom and one of left/right is set; bottom iff `clientY + height > innerHeight`, with `bottom = innerHeight − clientY`, else `top = clientY`; the same holds horizontally |
| Placement.PointerCornerAxesIndependent | src/lib/ctxmenu.directive.ts:48-54 | the vertical choice ignores x and width; the horizontal choice ignores y and height |
| ContextMenu.MenuHeightCounts | src/lib/context-menu/context-menu.component.ts:9-13 | height = 2 × (number of `"separator"` strings) + 24 × (all other items) |
| ContextMenu.MenuHeightAppend | src/lib/context-menu/context-menu.component.ts:9-13 | the height of a concatenation is the sum of the heights |
| ContextMenu.MenuHeightExamples | src/lib/context-menu/context-menu.component.ts:9-13 | `[A, "separator", B]` measures 50; a `{separator:true}` object measures 24; the empty list measures 0 |
| ContextMenu.MeasuredRows | src/lib/context-menu/context-menu.component.ts:17-18 | the rows the width is computed from are exactly the full items; separators of both kinds are dropped |
| ContextMenu.MeasuredRowsCounts | src/lib/context-menu/context-menu.component.ts:17-18 | each full item gives as many rows as it occurs in the menu, so duplicates are kept |
| ContextMenu.MeasuredRowsAppend | src/lib/context-menu/context-menu.component.ts:17-18 | the filter keeps order: the rows of a concatenation are the rows of each part, in sequence |
| ContextMenu.MeasuredRowsOfOne | src/lib/context-menu/context-menu.component.ts:17-18 | a full item gives exactly its own row, and a separator of either kind gives none |
| ContextMenu.BoundsThrowExamples | src/lib/context-menu/context-menu.component.ts:17-25 | the empty menu and a menu of separators throw; a single unlabelled item does not; an unlabelled item next to a labelled one, or next to an equal unlabelled item, throws |
| ContextMenu.UnlabelledRowThrows | src/lib/context-menu/context-menu.component.ts:21-25 | if some full item lacks a label, the measurement throws exactly when the number of full items is not one |
| ContextMenu.AllLabelledThrowsOnlyWhenNoRows | src/lib/context-menu/context-menu.component.ts:21-25 | if every full item has a label, the measurement throws exactly when every item is a separator |
| ContextMenu.FirstUnderline | src/lib/context-menu/context-menu.component.ts:227 | the result is the leftmost index (from `from` on) where `_c_` occurs, with `c` an ASCII letter or digit in either case; None means there is no such index |
| ContextMenu.FormatLabel | src/lib/context-menu/context-menu.component.ts:226-228 | only the first `_c_` becomes `<u>c</u>`; everything before and after it is kept verbatim; a label with no match is returned as is |
| ContextMenu.AnnotateItem | src/lib/context-menu/context-menu.component.ts:111-125 | separators are untouched; only the three annotations change; `_disabled`/`_visible` follow the callback exactly when it exists and are kept otherwise; `_formattedLabel` is written only for a non-empty label |
| ContextMenu.Annotate | src/lib/context-menu/context-menu.component.ts:111-126 | every item is annotated, in order, and the length is kept |
| ContextMenu.CallbacksDecideDisabledAndHidden | src/lib/types.ts:41-50 | for a fresh item, the row is shown disabled iff `isDisabled` exists and returns true, and hidden iff `isVisible` exists and returns false |
| ContextMenu.AnnotateLastWins | src/lib/context-menu/context-menu.component.ts:111-126 | annotating a menu that an earlier opening already annotated, with any data and callbacks, gives what annotating the items as written gives: the last opening decides |
| ContextMenu.AnnotateIdempotent | src/lib/context-menu/context-menu.component.ts:111-126 | annotating an annotated menu again with the same data changes nothing |
| ContextMenu.ChildSize | src/lib/context-menu/context-menu.component.ts:173-186 | with a template, a non-zero size hint is used as given and an absent or zero one becomes 300 wide or 500 high; without one, the size is the children's measured width and summed row height |
| ContextMenu.TemplateSizeIgnoresChildren | src/lib/context-menu/context-menu.component.ts:173-186 | with a template, neither the children nor their measured width change the submenu size |
| ContextMenu.SubmenuShowsResolvedChildren | src/lib/context-menu/context-menu.component.ts:148-207 | children delivered to a template-less item are what the submenu shows, placed by their own width and row heights, after exactly one resolver call |
| ContextMenu.TemplateItemOpens | src/lib/context-menu/context-menu.component.ts:173-207 | a template item opens its template, or its children as a menu when it has any, placed with the template's size hints; when no resolution is due, the click does not fail |
| ContextMenu.EmptyResolvedSubmenuFails | src/lib/context-menu/context-menu.component.ts:148-186 | an empty children list delivered to a template-less item is stored, `_isResolving` is cleared, and the click then fails without opening anything |
| ContextMenu.SubmenuCorner | src/lib/context-menu/context-menu.component.ts:173-195 | exactly one of top/bottom is set; `bottom = 0` iff `row.y + h > innerHeight`, else `top = row.y`; `left = row.x − w` iff `row.x + w > innerWidth`, else `row.x + row.width`; `right` is never set |
| ContextMenu.AfterResolution | src/lib/context-menu/context-menu.component.ts:154-208 | a leaf calls its action with the data exactly once (if it has one) and ends by closing with true; otherwise no action runs and nothing closes, and exactly one child dialog opens unless measuring the children throws, which opens nothing |
| ContextMenu.Activate | src/lib/context-menu/context-menu.component.ts:141-208 | a separator click has no effect; the resolver is called (once) exactly when it exists and caching is off or there are no children; the click fails exactly when the resolver rejects or measuring the children throws; `_isResolving` ends false after a delivery and stays true after a rejection; a failed click runs no action, closes nothing and opens nothing; a leaf closes with true after at most one action call; any other item opens one child dialog at the submenu corner |
| ContextMenu.CachedChildrenResolveOnce | src/lib/context-menu/context-menu.component.ts:145-152 | with `cacheResolvedChildren: true`, two clicks call the resolver once in total when the first delivers children, and the second click leaves the item unchanged |
| ContextMenu.UncachedResolvesEveryClick | src/lib/context-menu/context-menu.component.ts:146-152 | with caching off or unset, each of two clicks calls the resolver |
| ContextMenu.CacheFlagNeedsResolver | src/lib/types.ts:74-85 | without a `childrenResolver`, the value of `cacheResolvedChildren` changes neither the effects nor the outcome of a click |
| ContextMenu.SizeHintsNeedTemplate | src/lib/types.ts:87-100 | without a `childTemplate`, `childWidth`/`childHeight` change neither the effects nor the outcome of a click |
| ContextMenu.ChildClosed | src/lib/context-menu/context-menu.component.ts:210-216 | a truthy child result goes to the item's action (if any) and then closes the parent with true, with no resolver call and no dialog opened; a falsy result does nothing |
| ContextMenu.CascadeCloseCollapsesChain | src/lib/context-menu/context-menu.component.ts:210-216 | a truthy selection closes every menu of an open chain, each with true, and runs each chain item's action: the innermost with the selection, every outer one with `true`, as many action calls as items with an action; nothing opens and no resolver runs; a falsy one closes nothing |
| ContextMenuDirective.OnContextMenu | src/lib/ctxmenu.directive.ts:35-75 | no dialog opens exactly when measuring the items throws; otherwise data, items and config reach the dialog unchanged and the position is the pointer corner for the items' measured width and summed height |
| ContextMenuDirective.OpenContextMenu | src/lib/ctxmenu.directive.ts:79-86 | no dialog opens exactly when measuring the items throws; otherwise data and items are forwarded unchanged, the config stays unset, and the menu opens at the pointer corner |
| TooltipDirective.Init | src/lib/tooltip.directive.ts:77-84 | a template reference fills the template slot, a component class fills the component slot, and any other input changes neither slot |
| TooltipDirective.OpenTooltip | src/lib/tooltip.directive.ts:100-143 | exactly one of top/bottom and one of left/right; overflow gives `bottom = innerHeight − clientY` / `right = innerWidth − clientX`, else `top = clientY` / `left = clientX`; no backdrop; slots, data and config are forwarded |
| TooltipDirective.OnPointerEnter | src/lib/tooltip.directive.ts:88-91 | pointer entry opens the tooltip with the directive's own slots, data and config, without a backdrop, at the pointer corner for its measured size: bottom iff it would clip below, right iff it would clip on the right |
| TooltipDirective.TooltipPlacedLikeContextMenu | src/lib/tooltip.directive.ts:120-126 | for equal pointer and size, the tooltip gets exactly the context menu's position whenever the context menu opens |
| AppMenuDirective.AppMenuCorner | src/lib/appmenu.directive.ts:46-59 | with no overflow: `top = src.y`, `left = src.x + src.width`; vertical overflow gives `bottom = 16`; a far-edge overflow gives `right = (innerWidth − src.x) + width`, and overwrites bottom with `innerHeight − (src.y − src.height)` only if the menu also clips below the trigger; top (left) is written iff bottom (right) is unset or 0 |
| AppMenuDirective.ZeroBottomSetsBothEdges | src/lib/appmenu.directive.ts:51-58 | when the overwritten bottom is the number 0, top and bottom are both set |
| AppMenuDirective.OnClick | src/lib/appmenu.directive.ts:31-72 | no dialog opens exactly when measuring the items throws; otherwise data and items reach the dialog unchanged and the position is the app-menu corner for the trigger and the items' measured size, so it always has a vertical and a horizontal edge, and bottom is set iff the menu clips below the trigger's top, or below its bottom when the far edge overflows |

## Left out

- `calcWidth` (src/lib/context-menu/context-menu.component.ts:15-50) measures text in the DOM. The menu's width is the opaque parameter `measuredWidth`; only when the measurement throws is modelled (`ContextMenu.BoundsThrow`). The measuring div is never removed (line 48 is commented out); that is not modelled.
- ContextMenu.BoundsThrow: the claim that sorting two or more rows reads every row's label rests on every comparison sort comparing each element at least once; which pairs are compared is left to the JavaScript engine and not modelled.
- `afterOpened` reflow (src/lib/context-menu/context-menu.component.ts:242-267) is not modelled. It returns when the lookup finds its target and dereferences `null` when it does not, so its correction never runs.
- src/lib/tooltip/tooltip.component.ts is not part of this model. `calcTooltipBounds` boots a throwaway application to measure a node, so the tooltip's size is the parameter `bounds`. `TooltipComponent` is injection wiring plus close-on-resize/blur.
- Framework plumbing is not modelled: `MatDialog.open` beyond the data and position handed to it, `afterClosed().subscribe`/`unsubscribe`, `TemplateWrapper`, decorators and host listeners, `preventDefault`/`stopPropagation`, `close()`, `onPointerLeave`, panel and backdrop classes, and the random tooltip id.
- Async/await is not modelled. The resolver's reply is an input value, and a measurement is a parameter.
- The `px` suffix is not modelled. Offsets are numbers. This hides two differences. First, the app menu's `bottom` at line 52 and `right` at line 55 are bare numbers rather than pixel strings, and the model keeps only their truthiness. Second, `getPosition` returns the string `"nullpx"` for a coordinate it never computed (src/lib/utils.ts:123-124), which the model writes as `None`.
- `labelTemplate` and `linkTemplate` (src/lib/types.ts:13 and 38) are not fields of `BaseCtx`: they only affect rendering. Icons, shortcuts and links are rendering concerns too; they are carried as fields but have no behaviour.
- Geometry.GetPosition: does not model JavaScript NaN. `config.arrowPadding` is a required parameter, although the source reads it without a default. An absent `config` (which would throw) is not modelled.
- ContextMenu.AnnotateItem: callbacks are total oracles, so a callback that throws (which aborts `ngOnInit` in the source) is not modelled. Non-function values in `isDisabled`/`isVisible` are excluded by the item type.
- ContextMenu.Activate: the resolver's reply is taken as already awaited. Effects are recorded in order, but their interleaving with other events is not modelled. An action that throws is not modelled: in the source it skips `close(true)` (lines 155-158) and rejects the click, while the model always closes a leaf.
- ContextMenu.ChildClosed: an action that throws inside the close subscription is not modelled: in the source it skips `close(true)` and `unsubscribe()` (lines 212-217), so the cascade stops at that menu, while the model always closes it.
- ContextMenu.CascadeCloseCollapsesChain: assumes no action in the chain throws, for the same reason.

=== FILE: appmenu.dfy ===
/**
  The app-menu directive: on a click it opens its menu beside the trigger
  element, flush right of it and top-aligned, moving it when it would clip
  the viewport.
 */
module AppMenuDirective {
  import opened Js
  import opened Geometry
  import opened Placement
  import opened MenuTypes
  import opened ContextMenu

  datatype Directive = Directive(data: Value, menuItems: seq<MenuItem>)

  /** What is handed to the dialog service: the menu component's data and position. */
  datatype AppMenuDialog = AppMenuDialog(data: Value, items: seq<MenuItem>, position: Corner)

  /** The preferred placement fits: the menu's bottom and far edge stay inside the viewport. */
  predicate FitsVertically(src: Rect, size: Size, viewport: Size) { src.y + size.height <= viewport.height }

  predicate FitsHorizontally(src: Rect, size: Size, viewport: Size) { src.x + src.width + size.width <= viewport.width }

  /** Below the trigger's bottom edge, the menu would clip. */
  predicate ClipsBelowTrigger(src: Rect, size: Size, viewport: Size) { src.y + src.height + size.height > viewport.height }

  /**
    The element-anchored corner rule. A vertical clip pins the menu 16px
    above the bottom edge. A horizontal clip (judged from the trigger's far
    edge) sets `right` to (viewport width - trigger x) + menu width and, if
    the menu would also clip below the trigger, overwrites `bottom` with
    viewport height - (trigger y - trigger height). Those two values are
    bare numbers, so a value of 0 is falsy and then `top` or `left` is
    written as well.
   */
  function AppMenuCorner(src: Rect, size: Size, viewport: Size): (c: Corner)
    ensures FitsVertically(src, size, viewport) && FitsHorizontally(src, size, viewport) ==>
              c == Corner(Some(src.y), Some(src.x + src.width), None, None)
    ensures c.bottom.Some? <==>
              !FitsVertically(src, size, viewport)
              || (!FitsHorizontally(src, size, viewport) && ClipsBelowTrigger(src, size, viewport))
    ensures !FitsHorizontally(src, size, viewport) && ClipsBelowTrigger(src, size, viewport) ==>
              c.bottom == Some(viewport.height - (src.y - src.height))
    ensures !FitsVertically(src, size, viewport)
            && (FitsHorizontally(src, size, viewport) || !ClipsBelowTrigger(src, size, viewport)) ==>
              c.bottom == Some(16.0)
    ensures c.right.Some? <==> !FitsHorizontally(src, size, viewport)
    ensures c.right.Some? ==> c.right.value == (viewport.width - src.x) + size.width
    ensures c.top.Some? <==> c.bottom.None? || c.bottom.value == 0.0
    ensures c.left.Some? <==> c.right.None? || c.right.value == 0.0
    ensures c.top.Some? ==> c.top.value == src.y
    ensures c.left.Some? ==> c.left.value == src.x + src.width
  {
    // `bottomIsText` records that `bottom` holds the string "16px", which is truthy.
    var bottom0 := if src.y + size.height > viewport.height then Some(16.0) else None;
    var bottomIsText0 := bottom0.Some?;
    var clipsRight := src.x + src.width + size.width > viewport.width;
    var bottom :=
      if clipsRight && src.y + src.height + size.height > viewport.height
      then Some(viewport.height - (src.y - src.height)) else bottom0;
    var bottomIsText := if clipsRight && src.y + src.height + size.height > viewport.height then false else bottomIsText0;
    var right := if clipsRight then Some((viewport.width - src.x) + size.width) else None;
    var bottomTruthy := bottom.Some? && (bottomIsText || Truthy(Number(bottom.value)));
    var rightTruthy := right.Some? && Truthy(Number(right.value));
    Corner(if !bottomTruthy then Some(src.y) else None,
           if !rightTruthy then Some(src.x + src.width) else None,
           bottom, right)
  }

  /**
    When the horizontal flip computes a `bottom` of exactly 0 (a trigger
    lying one trigger-height below the viewport), both `top` and `bottom`
    end up set.
   */
  lemma ZeroBottomSetsBothEdges()
    ensures var c := AppMenuCorner(Rect(700.0, 620.0, 50.0, 20.0), Size(200.0, 100.0), Size(800.0, 600.0));
            c.top == Some(620.0) && c.bottom == Some(0.0) && !OneVertical(c)
  {
  }

  /**
    `onContextMenu` of the app menu: open the items at the trigger's corner,
    sized by their measured width and summed row height. `None` is the
    handler throwing while it measures the items, before any dialog opens.
   */
  function OnClick(d: Directive, src: Rect, viewport: Size, measuredWidth: real): (r: Option<AppMenuDialog>)
    ensures r.None? <==> BoundsThrow(d.menuItems)
    ensures r.Some? ==> r.value.data == d.data && r.value.items == d.menuItems
    ensures r.Some? ==> r.value.position == AppMenuCorner(src, Size(measuredWidth, MenuHeight(d.menuItems) as real), viewport)
    ensures r.Some? ==> r.value.position.bottom.Some? || r.value.position.top.Some?
    ensures r.Some? ==> r.value.position.right.Some? || r.value.position.left.Some?
    ensures r.Some? ==>
              (r.value.position.bottom.Some? <==>
                 src.y + MenuHeight(d.menuItems) as real > viewport.height
                 || (src.x + src.width + measuredWidth > viewport.width
                     && src.y + src.height + MenuHeight(d.menuItems) as real > viewport.height))
  {
    if BoundsThrow(d.menuItems) then None
    else Some(AppMenuDialog(d.data, d.menuItems, AppMenuCorner(src, Size(measuredWidth, MenuHeight(d.menuItems) as real), viewport)))
  }
}

=== FILE: context_menu.dfy ===
/**
  The context-menu component: the menu's row-height sum, label formatting,
  the per-item annotation done when a menu opens, and the activation of a
  clicked row — resolving children on demand, running a leaf's action and
  closing, or opening a submenu beside the row and propagating the
  submenu's close back up the chain of open menus.

  An activation is a pure step: it returns the updated item together with
  the effects the component performs (calling the resolver, invoking an
  action, closing its dialog with a result, opening a child dialog).
 */
module ContextMenu {
  import opened Js
  import opened Geometry
  import opened Placement
  import opened MenuTypes

  // ---------------------------------------------------------------------
  // Menu height

  /** A bare "separator" string is a 2px rule; every object is a 24px row. */
  function ItemHeight(item: MenuItem): nat
  {
    if item.SeparatorLine? then 2 else 24
  }

  /** The height half of `calcMenuItemBounds`: the sum of the row heights. */
  function MenuHeight(items: seq<MenuItem>): nat
  {
    if |items| == 0 then 0 else ItemHeight(items[0]) + MenuHeight(items[1..])
  }

  /**
    The height counts 2 for each "separator" string and 24 for every other
    item, labelled separator objects included.
   */
  lemma {:induction false} MenuHeightCounts(items: seq<MenuItem>)
    ensures var lines := multiset(items)[SeparatorLine];
            MenuHeight(items) == 2 * lines + 24 * (|items| - lines)
  {
    if |items| > 0 {
      MenuHeightCounts(items[1..]);
      assert items == [items[0]] + items[1..];
      assert multiset(items) == multiset{items[0]} + multiset(items[1..]);
    }
  }

  /** The height of a concatenation is the sum of the heights. */
  lemma {:induction false} MenuHeightAppend(a: seq<MenuItem>, b: seq<MenuItem>)
    ensures MenuHeight(a + b) == MenuHeight(a) + MenuHeight(b)
  {
    if |a| > 0 {
      assert (a + b)[1..] == a[1..] + b;
      MenuHeightAppend(a[1..], b);
    } else {
      assert a + b == b;
    }
  }

  /** Two rows around a separator string measure 50; no rows measure 0. */
  lemma MenuHeightExamples()
    ensures MenuHeight([Labelled("A"), SeparatorLine, Labelled("B")]) == 50
    ensures MenuHeight([LabelledSeparator("Group")]) == 24
    ensures MenuHeight([]) == 0
  {
  }

  // ---------------------------------------------------------------------
  // When measuring the menu throws

  /** The rows `calcWidth` measures: the full items, separators of both kinds dropped, in order. */
  function MeasuredRows(items: seq<MenuItem>): (rows: seq<BaseCtx>)
    ensures |rows| <= |items|
    ensures forall c :: c in rows <==> Entry(c) in items
  {
    if |items| == 0 then []
    else if items[0].Entry? then [items[0].ctx] + MeasuredRows(items[1..])
    else MeasuredRows(items[1..])
  }

  /** Each full item gives one row per occurrence: the filter keeps duplicates. */
  lemma {:induction false} MeasuredRowsCounts(items: seq<MenuItem>)
    ensures forall c :: multiset(MeasuredRows(items))[c] == multiset(items)[Entry(c)]
  {
    if |items| > 0 {
      MeasuredRowsCounts(items[1..]);
      assert items == [items[0]] + items[1..];
    }
  }

  /**
    The filter keeps order: the rows of a concatenation are the rows of the
    first part followed by those of the second.
   */
  lemma {:induction false} MeasuredRowsAppend(a: seq<MenuItem>, b: seq<MenuItem>)
    ensures MeasuredRows(a + b) == MeasuredRows(a) + MeasuredRows(b)
  {
    if |a| > 0 {
      assert (a + b)[1..] == a[1..] + b;
      MeasuredRowsAppend(a[1..], b);
    } else {
      assert a + b == b;
    }
  }

  /** A full item is one row; a separator of either kind is none. */
  lemma MeasuredRowsOfOne(item: MenuItem)
    ensures item.Entry? ==> MeasuredRows([item]) == [item.ctx]
    ensures IsSeparator(item) ==> MeasuredRows([item]) == []
  {
  }

  /**
    `calcMenuItemBounds` throws instead of returning a size. With no full
    item, `pop()` yields `undefined` and reading its `label` throws. With
    two or more, sorting by label length compares every row at least once,
    and the comparison throws on a row without a label. A single row
    without a label is never compared and does not throw.
   */
  predicate BoundsThrow(items: seq<MenuItem>)
  {
    var rows := MeasuredRows(items);
    |rows| == 0 || (|rows| >= 2 && exists k :: 0 <= k < |rows| && rows[k].caption.None?)
  }

  /**
    Separators alone throw, one unlabelled row does not, and an unlabelled
    row beside a labelled one, or beside an equal copy of itself, throws.
   */
  lemma BoundsThrowExamples()
    ensures BoundsThrow([]) && BoundsThrow([SeparatorLine, LabelledSeparator("Group")])
    ensures !BoundsThrow([Labelled("A"), SeparatorLine])
    ensures !BoundsThrow([Entry(Labelled("A").ctx.(caption := None))])
    ensures BoundsThrow([Labelled("A"), SeparatorLine, Entry(Labelled("B").ctx.(caption := None))])
    ensures BoundsThrow([Entry(Labelled("B").ctx.(caption := None)), Entry(Labelled("B").ctx.(caption := None))])
  {
  }

  /**
    In a menu with at least two full items, one without a label makes the
    measurement throw wherever it sits.
   */
  lemma UnlabelledRowThrows(items: seq<MenuItem>, c: BaseCtx)
    requires Entry(c) in items && c.caption.None?
    ensures BoundsThrow(items) <==> |MeasuredRows(items)| != 1
  {
  }

  /** When every full item has a label, only a menu of separators throws. */
  lemma AllLabelledThrowsOnlyWhenNoRows(items: seq<MenuItem>)
    requires forall c :: Entry(c) in items ==> c.caption.Some?
    ensures BoundsThrow(items) <==> forall k :: 0 <= k < |items| ==> IsSeparator(items[k])
  {
    var rows := MeasuredRows(items);
    if |rows| > 0 {
      assert Entry(rows[0]) in items;
    }
  }

  // ---------------------------------------------------------------------
  // Label formatting

  /** A letter or digit, either case: the class `[a-z0-9]` under the `i` flag. */
  predicate IsWordChar(c: char)
  {
    ('a' <= c <= 'z') || ('A' <= c <= 'Z') || ('0' <= c <= '9')
  }

  /** `_c_` with a single letter or digit `c` starts at index `i` of `s`. */
  predicate UnderlineAt(s: string, i: int)
  {
    0 <= i && i + 3 <= |s| && s[i] == '_' && IsWordChar(s[i + 1]) && s[i + 2] == '_'
  }

  /** The leftmost `_c_` at or after `from`, as the regular expression finds it. */
  function FirstUnderline(s: string, from: nat): (r: Option<nat>)
    requires from <= |s|
    ensures r.Some? ==> from <= r.value && UnderlineAt(s, r.value)
    ensures r.Some? ==> forall j :: from <= j < r.value ==> !UnderlineAt(s, j)
    ensures r.None? ==> forall j :: from <= j < |s| ==> !UnderlineAt(s, j)
    decreases |s| - from
  {
    if from + 3 > |s| then None
    else if UnderlineAt(s, from) then Some(from)
    else FirstUnderline(s, from + 1)
  }

  /**
    `formatLabel`: the first `_c_` becomes `<u>c</u>`; the rest of the label,
    later matches included, is kept as is, and a label without a match is
    returned unchanged.
   */
  function FormatLabel(caption: string): (r: string)
    ensures (forall j :: 0 <= j < |caption| ==> !UnderlineAt(caption, j)) ==> r == caption
    ensures forall i :: UnderlineAt(caption, i) && (forall j :: 0 <= j < i ==> !UnderlineAt(caption, j)) ==>
              r == caption[..i] + "<u>" + [caption[i + 1]] + "</u>" + caption[i + 3..]
  {
    match FirstUnderline(caption, 0)
    case None => caption
    case Some(i) => caption[..i] + "<u>" + [caption[i + 1]] + "</u>" + caption[i + 3..]
  }

  // ---------------------------------------------------------------------
  // Annotation when the menu opens

  /** `item` and `r` differ at most in the three annotations `ngOnInit` writes. */
  predicate OnlyOpenAnnotationsDiffer(item: MenuItem, r: MenuItem)
  {
    match item
    case Entry(c) =>
      r.Entry? && r.ctx.(formattedLabel := c.formattedLabel, disabled := c.disabled, visible := c.visible) == c
    case _ => r == item
  }

  /**
    The annotation of one item. Separators of either kind are skipped; a
    non-empty label gets its formatted form; `_disabled` and `_visible` are
    written only when the corresponding callback exists, from what it
    returns for the menu's data.
   */
  function AnnotateItem(item: MenuItem, data: Value, eval: (CallbackId, Value) -> bool): (r: MenuItem)
    ensures OnlyOpenAnnotationsDiffer(item, r)
    ensures item.Entry? && item.ctx.isDisabled.Some? ==>
              (ShownDisabled(r) <==> eval(item.ctx.isDisabled.value, data))
    ensures item.Entry? && item.ctx.isDisabled.None? ==> r.ctx.disabled == item.ctx.disabled
    ensures item.Entry? && item.ctx.isVisible.Some? ==>
              (Hidden(r) <==> !eval(item.ctx.isVisible.value, data))
    ensures item.Entry? && item.ctx.isVisible.None? ==> r.ctx.visible == item.ctx.visible
    ensures item.Entry? && item.ctx.caption.Some? && |item.ctx.caption.value| > 0 ==>
              r.ctx.formattedLabel == Some(FormatLabel(item.ctx.caption.value))
    ensures item.Entry? && (item.ctx.caption.None? || item.ctx.caption.value == "") ==>
              r.ctx.formattedLabel == item.ctx.formattedLabel
  {
    match item
    case Entry(c) =>
      var formatted :=
        if c.caption.Some? && |c.caption.value| > 0 then Some(FormatLabel(c.caption.value)) else c.formattedLabel;
      var disabled := if c.isDisabled.Some? then Some(eval(c.isDisabled.value, data)) else c.disabled;
      var visible := if c.isVisible.Some? then Some(eval(c.isVisible.value, data)) else c.visible;
      Entry(c.(formattedLabel := formatted, disabled := disabled, visible := visible))
    case _ => item
  }

  /** `ngOnInit`: every item of the menu is annotated, in place and in order. */
  function Annotate(items: seq<MenuItem>, data: Value, eval: (CallbackId, Value) -> bool): (r: seq<MenuItem>)
    ensures |r| == |items|
    ensures forall k :: 0 <= k < |items| ==> r[k] == AnnotateItem(items[k], data, eval)
  {
    if |items| == 0 then []
    else [AnnotateItem(items[0], data, eval)] + Annotate(items[1..], data, eval)
  }

  /**
    For an item as the caller wrote it, the row is shown disabled exactly
    when its `isDisabled` callback returns true, and hidden exactly when its
    `isVisible` callback returns false.
   */
  lemma CallbacksDecideDisabledAndHidden(item: MenuItem, data: Value, eval: (CallbackId, Value) -> bool)
    requires Unannotated(item)
    ensures ShownDisabled(AnnotateItem(item, data, eval)) <==>
              item.Entry? && item.ctx.isDisabled.Some? && eval(item.ctx.isDisabled.value, data)
    ensures Hidden(AnnotateItem(item, data, eval)) <==>
              item.Entry? && item.ctx.isVisible.Some? && !eval(item.ctx.isVisible.value, data)
  {
  }

  /**
    The last opening decides: annotating a menu that an earlier opening
    already annotated, with any data and callbacks, gives what annotating
    the items as written gives. So the annotations the source writes onto
    the caller's shared item objects never show through to a later opening.
   */
  lemma AnnotateLastWins(items: seq<MenuItem>, d1: Value, e1: (CallbackId, Value) -> bool,
                         d2: Value, e2: (CallbackId, Value) -> bool)
    ensures Annotate(Annotate(items, d1, e1), d2, e2) == Annotate(items, d2, e2)
  {
  }

  /** Opening the same menu again with the same data changes nothing more. */
  lemma AnnotateIdempotent(items: seq<MenuItem>, data: Value, eval: (CallbackId, Value) -> bool)
    ensures Annotate(Annotate(items, data, eval), data, eval) == Annotate(items, data, eval)
  {
  }

  // ---------------------------------------------------------------------
  // Activation

  /** What awaiting `childrenResolver(data)` produced. */
  datatype ResolverReply =
    | Delivered(children: Option<seq<MenuItem>>)
    | Rejected

  /** The content of a child dialog: another menu, or a template. */
  datatype ChildView = ChildMenu(items: seq<MenuItem>) | ChildTemplate(template: TemplateId)

  datatype Effect =
    | CallResolver(resolver: CallbackId, arg: Value)
    | InvokeAction(action: CallbackId, arg: Value)
    | CloseDialog(result: Value)
    | OpenChild(view: ChildView, position: Corner, data: Value)

  /** `Finished`, or `Failed` when the click handler's promise rejects. */
  datatype Status = Finished | Failed

  datatype Activation = Activation(item: MenuItem, effects: seq<Effect>, status: Status)

  predicate IsResolverCall(e: Effect) { e.CallResolver? }

  predicate IsActionCall(e: Effect) { e.InvokeAction? }

  predicate IsClose(e: Effect) { e.CloseDialog? }

  predicate IsOpen(e: Effect) { e.OpenChild? }

  /** How many of `effects` satisfy `p`. */
  function Count(effects: seq<Effect>, p: Effect -> bool): nat
  {
    if |effects| == 0 then 0 else (if p(effects[0]) then 1 else 0) + Count(effects[1..], p)
  }

  lemma {:induction false} CountAppend(a: seq<Effect>, b: seq<Effect>, p: Effect -> bool)
    ensures Count(a + b, p) == Count(a, p) + Count(b, p)
  {
    if |a| > 0 {
      assert (a + b)[1..] == a[1..] + b;
      CountAppend(a[1..], b, p);
    } else {
      assert a + b == b;
    }
  }

  /**
    The click loads children when there is a resolver and either caching is
    off, or it is on and there are no children yet.
   */
  predicate WantsResolve(c: BaseCtx)
  {
    c.childrenResolver.Some? && (!IsSet(c.cacheResolvedChildren) || c.children.None?)
  }

  /** Neither a template nor children: activating the item runs its action. */
  predicate IsLeaf(c: BaseCtx)
  {
    c.childTemplate.None? && c.children.None?
  }

  /**
    The size the submenu is placed with: a template's size hints, falling
    back to 300x500 when absent or zero, or else the children's measured
    width and summed row height.
   */
  function ChildSize(c: BaseCtx, measuredWidth: real): (s: Size)
    ensures c.childTemplate.Some? && (c.childWidth.None? || c.childWidth == Some(0.0)) ==> s.width == 300.0
    ensures c.childTemplate.Some? && (c.childHeight.None? || c.childHeight == Some(0.0)) ==> s.height == 500.0
    ensures c.childTemplate.Some? && c.childWidth.Some? && c.childWidth.value != 0.0 ==> s.width == c.childWidth.value
    ensures c.childTemplate.Some? && c.childHeight.Some? && c.childHeight.value != 0.0 ==> s.height == c.childHeight.value
    ensures c.childTemplate.None? && c.children.Some? ==>
              s.width == measuredWidth && s.height == MenuHeight(c.children.value) as real
  {
    if c.childTemplate.Some? then Size(NumberOr(c.childWidth, 300.0), NumberOr(c.childHeight, 500.0))
    else if c.children.Some? then Size(measuredWidth, MenuHeight(c.children.value) as real)
    else Size(0.0, 0.0)
  }

  /**
    With a template, the submenu size depends on the size hints alone:
    neither the children nor their measured width change it.
   */
  lemma TemplateSizeIgnoresChildren(c: BaseCtx, children: Option<seq<MenuItem>>, w1: real, w2: real)
    requires c.childTemplate.Some?
    ensures ChildSize(c.(children := children), w1) == ChildSize(c, w2)
  {
  }

  /**
    Placing the child dialog throws: the item has no template, so its
    children are measured, and measuring them throws.
   */
  predicate PlacementThrows(c: BaseCtx)
  {
    c.childTemplate.None? && c.children.Some? && BoundsThrow(c.children.value)
  }

  /** What the child dialog shows: the children when there are any, else the template. */
  function ChildViewOf(c: BaseCtx): (v: ChildView)
    requires !IsLeaf(c)
    ensures v.ChildMenu? <==> c.children.Some?
    ensures v.ChildMenu? ==> v.items == c.children.value
    ensures v.ChildTemplate? ==> v.template == c.childTemplate.value
  {
    if c.children.Some? then ChildMenu(c.children.value) else ChildTemplate(c.childTemplate.value)
  }

  /**
    Placement of a submenu beside the clicked row. It opens flush right of
    the row, top-aligned with it, and flips to end at the row's left edge
    when it would clip the right edge of the viewport; when it would clip
    the bottom it is pinned to the bottom edge instead. Both flipped values
    are pixel strings, so they are truthy and `right` is never written.
   */
  function SubmenuCorner(row: Rect, size: Size, viewport: Size): (c: Corner)
    ensures OneVertical(c) && c.left.Some? && c.right.None?
    ensures c.bottom.Some? <==> row.y + size.height > viewport.height
    ensures c.bottom.Some? ==> c.bottom.value == 0.0
    ensures c.top.Some? ==> c.top.value == row.y
    ensures row.x + size.width > viewport.width ==> c.left.value + size.width == row.x
    ensures row.x + size.width <= viewport.width ==> c.left.value == row.x + row.width
  {
    var bottom := if row.y + size.height > viewport.height then Some(0.0) else None;
    var left := if row.x + size.width > viewport.width then Some(row.x - size.width) else None;
    Corner(if bottom.None? then Some(row.y) else None,
           if left.None? then Some(row.x + row.width) else left,
           bottom, None)
  }

  /**
    The effects once any resolution is over: a leaf invokes its action (if
    any) with the menu's data exactly once and then closes its dialog with
    `true`; an item with children or a template opens exactly one child
    dialog and neither runs its action nor closes, unless measuring its
    children throws, which leaves nothing done.
   */
  function AfterResolution(c: BaseCtx, data: Value, row: Rect, viewport: Size, measuredWidth: real): (effects: seq<Effect>)
    ensures Count(effects, IsResolverCall) == 0
    ensures IsLeaf(c) ==>
              && Count(effects, IsClose) == 1
              && effects[|effects| - 1] == CloseDialog(Bool(true))
              && Count(effects, IsActionCall) == (if c.action.Some? then 1 else 0)
              && (c.action.Some? ==> effects[0] == InvokeAction(c.action.value, data))
              && Count(effects, IsOpen) == 0
    ensures !IsLeaf(c) ==> Count(effects, IsClose) == 0 && Count(effects, IsActionCall) == 0
    ensures PlacementThrows(c) ==> effects == []
    ensures !IsLeaf(c) && !PlacementThrows(c) ==>
              && Count(effects, IsOpen) == 1
              && effects[|effects| - 1] == OpenChild(ChildViewOf(c), SubmenuCorner(row, ChildSize(c, measuredWidth), viewport), data)
  {
    if IsLeaf(c) then
      if c.action.Some? then
        var effects := [InvokeAction(c.action.value, data), CloseDialog(Bool(true))];
        assert effects == [effects[0]] + [CloseDialog(Bool(true))];
        CountAppend([effects[0]], [CloseDialog(Bool(true))], IsResolverCall);
        CountAppend([effects[0]], [CloseDialog(Bool(true))], IsClose);
        CountAppend([effects[0]], [CloseDialog(Bool(true))], IsActionCall);
        CountAppend([effects[0]], [CloseDialog(Bool(true))], IsOpen);
        effects
      else [CloseDialog(Bool(true))]
    else if PlacementThrows(c) then []
    else
      [OpenChild(ChildViewOf(c), SubmenuCorner(row, ChildSize(c, measuredWidth), viewport), data)]
  }

  /** The item after any resolution, as `onMenuItemClick` leaves it on success. */
  function Resolved(c: BaseCtx, reply: ResolverReply): BaseCtx
  {
    if WantsResolve(c) && reply.Delivered? then c.(children := reply.children, isResolving := Some(false))
    else c
  }

  /**
    `onMenuItemClick`. `reply` is what the children resolver delivers if it
    is called; `row` is the clicked row's bounding box and `measuredWidth`
    the rendered width of the children list, both read from the page. The
    click fails when the resolver rejects, or when measuring the children
    to place the submenu throws; in the latter case the delivered children
    have already been stored on the item.
   */
  function Activate(item: MenuItem, data: Value, reply: ResolverReply, row: Rect, viewport: Size, measuredWidth: real): (r: Activation)
    ensures IsSeparator(item) ==> r == Activation(item, [], Finished)
    ensures Count(r.effects, IsResolverCall) == (if item.Entry? && WantsResolve(item.ctx) then 1 else 0)
    ensures item.Entry? && WantsResolve(item.ctx) ==>
              r.effects[0] == CallResolver(item.ctx.childrenResolver.value, data)
    ensures r.status == Failed <==>
              item.Entry? && ((WantsResolve(item.ctx) && reply.Rejected?) || PlacementThrows(Resolved(item.ctx, reply)))
    ensures item.Entry? && WantsResolve(item.ctx) && reply.Rejected? ==>
              r.item == Entry(item.ctx.(isResolving := Some(true)))
    ensures r.status == Failed ==>
              && Count(r.effects, IsActionCall) == 0
              && Count(r.effects, IsClose) == 0
              && Count(r.effects, IsOpen) == 0
    ensures item.Entry? && !(WantsResolve(item.ctx) && reply.Rejected?) ==>
              && r.item == Entry(Resolved(item.ctx, reply))
              && (r.item.ctx.isResolving == if WantsResolve(item.ctx) then Some(false) else item.ctx.isResolving)
    ensures item.Entry? && r.status == Finished && IsLeaf(r.item.ctx) ==>
              && Count(r.effects, IsClose) == 1
              && r.effects[|r.effects| - 1] == CloseDialog(Bool(true))
              && Count(r.effects, IsActionCall) == (if item.ctx.action.Some? then 1 else 0)
              && (item.ctx.action.Some? ==> InvokeAction(item.ctx.action.value, data) in r.effects)
              && Count(r.effects, IsOpen) == 0
    ensures item.Entry? && r.status == Finished && !IsLeaf(r.item.ctx) ==>
              && Count(r.effects, IsClose) == 0
              && Count(r.effects, IsActionCall) == 0
              && Count(r.effects, IsOpen) == 1
              && r.effects[|r.effects| - 1]
                 == OpenChild(ChildViewOf(r.item.ctx), SubmenuCorner(row, ChildSize(r.item.ctx, measuredWidth), viewport), data)
  {
    match item
    case Entry(c) =>
      if WantsResolve(c) then
        var call := [CallResolver(c.childrenResolver.value, data)];
        match reply
        case Rejected =>
          Activation(Entry(c.(isResolving := Some(true))), call, Failed)
        case Delivered(kids) =>
          var done := c.(children := kids, isResolving := Some(false));
          var tail := AfterResolution(done, data, row, viewport, measuredWidth);
          CountAppend(call, tail, IsResolverCall);
          CountAppend(call, tail, IsClose);
          CountAppend(call, tail, IsActionCall);
          CountAppend(call, tail, IsOpen);
          Activation(Entry(done), call + tail, if PlacementThrows(done) then Failed else Finished)
      else
        Activation(Entry(c), AfterResolution(c, data, row, viewport, measuredWidth),
                   if PlacementThrows(c) then Failed else Finished)
    case _ => Activation(item, [], Finished)
  }

  /**
    With caching on, an item whose first click resolved to a children list
    reuses that list on the next click: over both clicks the resolver runs
    once, and the second click leaves the item as the first left it.
   */
  lemma CachedChildrenResolveOnce(c: BaseCtx, data: Value, first: ResolverReply, second: ResolverReply,
                                  row: Rect, viewport: Size, measuredWidth: real)
    requires c.childrenResolver.Some? && c.cacheResolvedChildren == Some(true) && c.children.None?
    requires first.Delivered? && first.children.Some?
    ensures var one := Activate(Entry(c), data, first, row, viewport, measuredWidth);
            var two := Activate(one.item, data, second, row, viewport, measuredWidth);
            && Count(one.effects, IsResolverCall) + Count(two.effects, IsResolverCall) == 1
            && two.item == one.item
  {
  }

  /** With caching off or unset, every click calls the resolver again. */
  lemma UncachedResolvesEveryClick(c: BaseCtx, data: Value, first: ResolverReply, second: ResolverReply,
                                   row: Rect, viewport: Size, measuredWidth: real)
    requires c.childrenResolver.Some? && !IsSet(c.cacheResolvedChildren)
    ensures var one := Activate(Entry(c), data, first, row, viewport, measuredWidth);
            var two := Activate(one.item, data, second, row, viewport, measuredWidth);
            Count(one.effects, IsResolverCall) == 1 && Count(two.effects, IsResolverCall) == 1
  {
  }

  /** `cacheResolvedChildren` only matters when there is a `childrenResolver`. */
  lemma CacheFlagNeedsResolver(c: BaseCtx, flag1: Option<bool>, flag2: Option<bool>, data: Value,
                               reply: ResolverReply, row: Rect, viewport: Size, measuredWidth: real)
    requires c.childrenResolver.None?
    ensures var one := Activate(Entry(c.(cacheResolvedChildren := flag1)), data, reply, row, viewport, measuredWidth);
            var two := Activate(Entry(c.(cacheResolvedChildren := flag2)), data, reply, row, viewport, measuredWidth);
            one.effects == two.effects && one.status == two.status
  {
  }

  /** `childWidth` and `childHeight` only matter for an item with a `childTemplate`. */
  lemma SizeHintsNeedTemplate(c: BaseCtx, w1: Option<real>, h1: Option<real>, w2: Option<real>, h2: Option<real>,
                              data: Value, reply: ResolverReply, row: Rect, viewport: Size, measuredWidth: real)
    requires c.childTemplate.None?
    ensures var one := Activate(Entry(c.(childWidth := w1, childHeight := h1)), data, reply, row, viewport, measuredWidth);
            var two := Activate(Entry(c.(childWidth := w2, childHeight := h2)), data, reply, row, viewport, measuredWidth);
            one.effects == two.effects && one.status == two.status
  {
  }

  /**
    Children a resolver delivers to an item without a template are what the
    submenu shows, placed by their own measured width and row heights.
   */
  lemma SubmenuShowsResolvedChildren(c: BaseCtx, kids: seq<MenuItem>, data: Value,
                                     row: Rect, viewport: Size, measuredWidth: real)
    requires WantsResolve(c) && c.childTemplate.None? && !BoundsThrow(kids)
    ensures Activate(Entry(c), data, Delivered(Some(kids)), row, viewport, measuredWidth)
         == Activation(Entry(c.(children := Some(kids), isResolving := Some(false))),
                       [CallResolver(c.childrenResolver.value, data),
                        OpenChild(ChildMenu(kids), SubmenuCorner(row, Size(measuredWidth, MenuHeight(kids) as real), viewport), data)],
                       Finished)
  {
  }

  /**
    An item with a template opens the template when it has no children.
    When it also has children it shows them as a menu, placed with the
    template's size hints, and the children are never measured, so the
    click cannot fail on them.
   */
  lemma TemplateItemOpens(c: BaseCtx, data: Value, reply: ResolverReply, row: Rect, viewport: Size, measuredWidth: real)
    requires c.childTemplate.Some? && !WantsResolve(c)
    ensures var size := Size(NumberOr(c.childWidth, 300.0), NumberOr(c.childHeight, 500.0));
            var view := if c.children.Some? then ChildMenu(c.children.value) else ChildTemplate(c.childTemplate.value);
            Activate(Entry(c), data, reply, row, viewport, measuredWidth)
            == Activation(Entry(c), [OpenChild(view, SubmenuCorner(row, size, viewport), data)], Finished)
  {
  }

  /** A resolver that delivers no full item to a template-less item makes the click fail. */
  lemma EmptyResolvedSubmenuFails(c: BaseCtx, data: Value, row: Rect, viewport: Size, measuredWidth: real)
    requires WantsResolve(c) && c.childTemplate.None?
    ensures var r := Activate(Entry(c), data, Delivered(Some([])), row, viewport, measuredWidth);
            && r.status == Failed
            && r.effects == [CallResolver(c.childrenResolver.value, data)]
            && r.item.ctx.children == Some([]) && r.item.ctx.isResolving == Some(false)
  {
  }

  // ---------------------------------------------------------------------
  // Closing propagation

  /**
    What the parent menu does when the child dialog it opened for item `c`
    closes with `result`: on a truthy result it hands the result to the
    item's action, if any, and closes itself with `true`; on a falsy result
    it stays open and does nothing.
   */
  function ChildClosed(c: BaseCtx, result: Value): (effects: seq<Effect>)
    ensures !Truthy(result) ==> effects == []
    ensures Truthy(result) ==>
              && Count(effects, IsClose) == 1
              && effects[|effects| - 1] == CloseDialog(Bool(true))
              && Count(effects, IsActionCall) == (if c.action.Some? then 1 else 0)
              && (c.action.Some? ==> effects[0] == InvokeAction(c.action.value, result))
    ensures forall k :: 0 <= k < |effects| && effects[k].CloseDialog? ==> effects[k].result == Bool(true)
    ensures Count(effects, IsOpen) == 0 && Count(effects, IsResolverCall) == 0
  {
    if !Truthy(result) then []
    else if c.action.Some? then
      var effects := [InvokeAction(c.action.value, result), CloseDialog(Bool(true))];
      assert effects == [effects[0]] + [CloseDialog(Bool(true))];
      CountAppend([effects[0]], [CloseDialog(Bool(true))], IsClose);
      CountAppend([effects[0]], [CloseDialog(Bool(true))], IsActionCall);
      CountAppend([effects[0]], [CloseDialog(Bool(true))], IsOpen);
      CountAppend([effects[0]], [CloseDialog(Bool(true))], IsResolverCall);
      effects
    else [CloseDialog(Bool(true))]
  }

  /**
    The chain of open menus reacting to the innermost child closing with
    `result`. `path` lists, innermost first, the items whose submenus are
    open; each menu that closes hands `true` to the next one out.
   */
  function CascadeClose(path: seq<BaseCtx>, result: Value): seq<Effect>
  {
    if |path| == 0 then []
    else if Truthy(result) then ChildClosed(path[0], result) + CascadeClose(path[1..], Bool(true))
    else ChildClosed(path[0], result)
  }

  /** How many of the items in `path` have an action. */
  function ItemsWithAction(path: seq<BaseCtx>): nat
  {
    if |path| == 0 then 0 else (if path[0].action.Some? then 1 else 0) + ItemsWithAction(path[1..])
  }

  /**
    A truthy selection closes every menu of the chain, each with `true`, and
    runs each item's action once: the innermost item's action gets the
    selection, and every outer one gets the `true` its child closed with.
    Nothing opens and no resolver runs. A dismissal leaves every menu open.
   */
  lemma {:induction false} CascadeCloseCollapsesChain(path: seq<BaseCtx>, result: Value)
    ensures !Truthy(result) ==> CascadeClose(path, result) == []
    ensures Truthy(result) ==> Count(CascadeClose(path, result), IsClose) == |path|
    ensures Truthy(result) ==>
              Count(CascadeClose(path, result), IsActionCall) == ItemsWithAction(path)
    ensures forall k :: 0 <= k < |CascadeClose(path, result)| && CascadeClose(path, result)[k].CloseDialog? ==>
              CascadeClose(path, result)[k].result == Bool(true)
    ensures Truthy(result) ==>
              forall k :: 0 <= k < |path| && path[k].action.Some? ==>
                InvokeAction(path[k].action.value, if k == 0 then result else Bool(true)) in CascadeClose(path, result)
    ensures Count(CascadeClose(path, result), IsOpen) == 0
    ensures Count(CascadeClose(path, result), IsResolverCall) == 0
  {
    if |path| > 0 && Truthy(result) {
      var here := ChildClosed(path[0], result);
      var rest := CascadeClose(path[1..], Bool(true));
      CascadeCloseCollapsesChain(path[1..], Bool(true));
      CountAppend(here, rest, IsClose);
      CountAppend(here, rest, IsActionCall);
    }
  }
}

=== FILE: ctxmenu.dfy ===
/**
  The context-menu directive: on a right-click it measures its menu, places
  it at the pointer with the fallback corner rule, and asks the dialog
  service to show the menu component there. `openContextMenu` does the same
  without a host element.
 */
module ContextMenuDirective {
  import opened Js
  import opened Geometry
  import opened Placement
  import opened MenuTypes
  import opened ContextMenu

  /** The directive's inputs: context data, the menu items and the menu config. */
  datatype Directive = Directive(data: Value, menuItems: seq<MenuItem>, config: Option<PopupConfig>)

  /** What is handed to the dialog service: the menu component's data and position. */
  datatype MenuDialog = MenuDialog(data: Value, items: seq<MenuItem>, config: Option<PopupConfig>, position: Corner)

  /**
    `onContextMenu`. The menu's size is that of the very items shown: the
    rendered width `measuredWidth` of those items and their summed row
    height. The position is the pointer corner rule for that size. `None`
    is the handler throwing while it measures the items, before any dialog
    opens.
   */
  function OnContextMenu(d: Directive, evt: PointerEvent, viewport: Size, measuredWidth: real): (r: Option<MenuDialog>)
    ensures r.None? <==> BoundsThrow(d.menuItems)
    ensures r.Some? ==> r.value.data == d.data && r.value.items == d.menuItems && r.value.config == d.config
    ensures r.Some? ==>
              r.value.position == PointerCorner(evt.clientX, evt.clientY, Size(measuredWidth, MenuHeight(d.menuItems) as real), viewport)
    ensures r.Some? ==> OneVertical(r.value.position) && OneHorizontal(r.value.position)
    ensures r.Some? ==> (r.value.position.bottom.Some? <==> evt.clientY + MenuHeight(d.menuItems) as real > viewport.height)
    ensures r.Some? ==> (r.value.position.right.Some? <==> evt.clientX + measuredWidth > viewport.width)
  {
    if BoundsThrow(d.menuItems) then None
    else
      var size := Size(measuredWidth, MenuHeight(d.menuItems) as real);
      Some(MenuDialog(d.data, d.menuItems, d.config, PointerCorner(evt.clientX, evt.clientY, size, viewport)))
  }

  /**
    `openContextMenu`: a fresh directive with the given data and items and
    no config, opened at the event. Data and items reach the dialog
    unchanged and the config stays unset.
   */
  function OpenContextMenu(menuItems: seq<MenuItem>, data: Value, evt: PointerEvent, viewport: Size, measuredWidth: real): (r: Option<MenuDialog>)
    ensures r.None? <==> BoundsThrow(menuItems)
    ensures r.Some? ==> r.value.data == data && r.value.items == menuItems && r.value.config.None?
    ensures r.Some? ==>
              r.value.position == PointerCorner(evt.clientX, evt.clientY, Size(measuredWidth, MenuHeight(menuItems) as real), viewport)
  {
    OnContextMenu(Directive(data, menuItems, None), evt, viewport, measuredWidth)
  }
}

=== FILE: geometry.dfy ===
/**
  The anchored geometry resolver (`getPosition`): from an anchor (an
  element's bounding box or a pointer position), the popup's size, the popup
  configuration and the viewport size, compute the popup's top/left corner.
  The computation is a per-axis case split on `alignment`; on the other axis,
  the popup ends the arrow's length before the anchor's near edge (left,
  top) or starts the arrow's length past its far edge (right, bottom,
  unset); then a max-then-min clamp.
 */
module Geometry {
  import opened Js

  datatype Rect = Rect(x: real, y: real, width: real, height: real)

  datatype Size = Size(width: real, height: real)

  /** The pointer position of the triggering event. */
  datatype PointerEvent = PointerEvent(clientX: real, clientY: real)

  /** What the popup is anchored to: an element's box, or a pointer event. */
  datatype Anchor =
    | Element(bounds: Rect)
    | Pointer(evt: PointerEvent)

  /**
    `config.position`. A non-empty string other than the four sides is
    `Unrecognised`; an absent or empty position is `None` in `PopupConfig`.
   */
  datatype Side = Top | Right | Bottom | Left | Unrecognised

  /** `config.alignment`; an absent or unknown alignment is `None`. */
  datatype Alignment = Center | Start | End | BeforeStart | AfterEnd

  datatype PopupConfig = PopupConfig(
    position: Option<Side>,
    alignment: Option<Alignment>,
    edgePadding: Option<real>,
    arrowSize: Option<real>,
    arrowPadding: real
  )

  /**
    The resolver's output. `None` is a coordinate that was never computed;
    the source still appends the unit to it and returns the string "nullpx".
   */
  datatype Coords = Coords(top: Option<real>, left: Option<real>)

  /** The rectangle the popup is placed against: a pointer is a zero-size box. */
  function SourceRect(anchor: Anchor): (r: Rect)
    ensures anchor.Pointer? ==> r.width == 0.0 && r.height == 0.0
    ensures anchor.Pointer? ==> r.x == anchor.evt.clientX && r.y == anchor.evt.clientY
    ensures anchor.Element? ==> r == anchor.bounds
  {
    match anchor
    case Element(b) => b
    case Pointer(evt) => Rect(evt.clientX, evt.clientY, 0.0, 0.0)
  }

  /**
    A pointer anchor is placed exactly as an element whose bounding box has
    no extent and sits at the pointer.
   */
  lemma PointerIsZeroSizeElement(evt: PointerEvent, size: Size, config: PopupConfig, viewport: Size)
    ensures GetPosition(Pointer(evt), size, config, viewport)
         == GetPosition(Element(Rect(evt.clientX, evt.clientY, 0.0, 0.0)), size, config, viewport)
  {
  }

  /** `config.edgePadding || 0` */
  function EdgePadding(config: PopupConfig): real
  {
    NumberOr(config.edgePadding, 0.0)
  }

  /** `(config.arrowSize || 0) + config.arrowPadding` */
  function ArrowOffset(config: PopupConfig): real
  {
    NumberOr(config.arrowSize, 0.0) + config.arrowPadding
  }

  /** True when the popup sits beside the anchor (the default). */
  predicate Beside(config: PopupConfig)
  {
    config.position.None? || config.position == Some(Left) || config.position == Some(Right)
  }

  /** True when the popup sits above or below the anchor. */
  predicate Across(config: PopupConfig)
  {
    config.position == Some(Top) || config.position == Some(Bottom)
  }

  /**
    The near coordinate of a popup of extent `size` aligned against the anchor
    span that starts at `start` and has extent `extent`. Both switch
    statements of the resolver use this rule, one per axis.
   */
  function Align(alignment: Option<Alignment>, start: real, extent: real, size: real): real
  {
    match alignment
    case Some(End) => start + extent - size
    case Some(AfterEnd) => start + extent
    case Some(BeforeStart) => start - size
    case Some(Start) => start
    case _ => (start + extent / 2.0) - size / 2.0
  }

  function Max(a: real, b: real): real { if a >= b then a else b }

  function Min(a: real, b: real): real { if a <= b then a else b }

  /**
    `c` is what clamping `pre` into [pad, limit] with the lower bound first
    and the upper bound last yields: the upper bound always holds, the lower
    bound holds whenever the interval is not empty, and a value already in
    range is kept.
   */
  predicate ClampedInto(c: real, pre: real, pad: real, limit: real)
  {
    && c <= limit
    && (pad <= limit ==> pad <= c)
    && (pad > limit ==> c == limit)
    && (pad <= pre <= limit ==> c == pre)
    && (pre < pad <= limit ==> c == pad)
    && (pre > limit ==> c == limit)
  }

  /** `Math.min(limit, Math.max(pad, c))` */
  function Clamp(c: real, pad: real, limit: real): (r: real)
    ensures ClampedInto(r, c, pad, limit)
  {
    Min(limit, Max(pad, c))
  }

  /** The coordinates the resolver computes before the edge clamp. */
  function Unclamped(anchor: Anchor, size: Size, config: PopupConfig): (r: Coords)
    ensures r.top.Some? <==> config.position != Some(Unrecognised)
    ensures r.left.Some? <==> config.position != Some(Unrecognised)
  {
    var src := SourceRect(anchor);
    if Beside(config) then
      var top := Align(config.alignment, src.y, src.height, size.height);
      var left :=
        if config.position == Some(Left) then src.x - (size.width + ArrowOffset(config))
        else src.x + (src.width + ArrowOffset(config));
      Coords(Some(top), Some(left))
    else if Across(config) then
      var left := Align(config.alignment, src.x, src.width, size.width);
      var top :=
        if config.position == Some(Top) then src.y - (size.height + ArrowOffset(config))
        else src.y + (src.height + ArrowOffset(config));
      Coords(Some(top), Some(left))
    else
      assert config.position.Some? && config.position.value.Unrecognised?;
      Coords(None, None)
  }

  /**
    `getPosition`. Each coordinate is the pre-clamp coordinate clamped into
    [edgePadding, viewport extent - popup extent]; an unrecognised position
    leaves both coordinates unset.
   */
  function GetPosition(anchor: Anchor, size: Size, config: PopupConfig, viewport: Size): (r: Coords)
    ensures r.top.Some? <==> config.position != Some(Unrecognised)
    ensures r.left.Some? <==> config.position != Some(Unrecognised)
    ensures r.top.Some? ==>
              ClampedInto(r.top.value, Unclamped(anchor, size, config).top.value,
                          EdgePadding(config), viewport.height - size.height)
    ensures r.left.Some? ==>
              ClampedInto(r.left.value, Unclamped(anchor, size, config).left.value,
                          EdgePadding(config), viewport.width - size.width)
  {
    var pre := Unclamped(anchor, size, config);
    var pad := EdgePadding(config);
    if pre.top.None? || pre.left.None? then Coords(None, None)
    else
      Coords(Some(Clamp(pre.top.value, pad, viewport.height - size.height)),
             Some(Clamp(pre.left.value, pad, viewport.width - size.width)))
  }

  /** Whenever the popup fits, the resolver keeps it on screen on both axes. */
  lemma OnScreenWhenItFits(anchor: Anchor, size: Size, config: PopupConfig, viewport: Size)
    requires config.position != Some(Unrecognised)
    requires EdgePadding(config) <= viewport.height - size.height
    requires EdgePadding(config) <= viewport.width - size.width
    ensures var r := GetPosition(anchor, size, config, viewport);
            && EdgePadding(config) <= r.top.value <= viewport.height - size.height
            && EdgePadding(config) <= r.left.value <= viewport.width - size.width
  {
  }

  /**
    Beside the anchor, `alignment` decides `top`: start and end line up the
    popup's edges with the anchor's, beforestart and afterend put it just
    outside, and anything else centres it on the anchor.
   */
  lemma BesideAlignment(anchor: Anchor, size: Size, config: PopupConfig)
    requires Beside(config)
    ensures var src := SourceRect(anchor);
            var top := Unclamped(anchor, size, config).top.value;
            && (config.alignment == Some(Start) ==> top == src.y)
            && (config.alignment == Some(End) ==> top + size.height == src.y + src.height)
            && (config.alignment == Some(BeforeStart) ==> top + size.height == src.y)
            && (config.alignment == Some(AfterEnd) ==> top == src.y + src.height)
            && (config.alignment.None? || config.alignment == Some(Center) ==>
                  top + size.height / 2.0 == src.y + src.height / 2.0)
  {
  }

  /**
    Beside the anchor, `left` is offset past the anchor's far edge (right, or
    no position at all) or before its near edge (left) by the arrow.
   */
  lemma BesideOffset(anchor: Anchor, size: Size, config: PopupConfig)
    requires Beside(config)
    ensures var src := SourceRect(anchor);
            var left := Unclamped(anchor, size, config).left.value;
            && (config.position == Some(Left) ==> left + size.width + ArrowOffset(config) == src.x)
            && (config.position != Some(Left) ==> left == src.x + src.width + ArrowOffset(config))
  {
  }

  /** An unset position behaves exactly like "right". */
  lemma UnsetPositionIsRight(anchor: Anchor, size: Size, config: PopupConfig, viewport: Size)
    requires config.position.None?
    ensures GetPosition(anchor, size, config, viewport)
         == GetPosition(anchor, size, config.(position := Some(Right)), viewport)
    ensures Unclamped(anchor, size, config).left.value
         == SourceRect(anchor).x + SourceRect(anchor).width + NumberOr(config.arrowSize, 0.0) + config.arrowPadding
  {
  }

  /** A missing edge padding or arrow size is the same as 0. */
  lemma MissingPaddingIsZero(anchor: Anchor, size: Size, config: PopupConfig, viewport: Size)
    ensures config.edgePadding.None? ==>
              GetPosition(anchor, size, config, viewport)
              == GetPosition(anchor, size, config.(edgePadding := Some(0.0)), viewport)
    ensures config.arrowSize.None? ==>
              GetPosition(anchor, size, config, viewport)
              == GetPosition(anchor, size, config.(arrowSize := Some(0.0)), viewport)
  {
  }

  function TransposeRect(r: Rect): Rect { Rect(r.y, r.x, r.height, r.width) }

  function TransposeSize(s: Size): Size { Size(s.height, s.width) }

  function TransposeAnchor(a: Anchor): Anchor
  {
    match a
    case Element(b) => Element(TransposeRect(b))
    case Pointer(evt) => Pointer(PointerEvent(evt.clientY, evt.clientX))
  }

  /**
    Above/below the anchor is the beside-the-anchor rule with the axes
    swapped: top plays the part of left and bottom that of right.
   */
  lemma AcrossIsTransposedBeside(anchor: Anchor, size: Size, config: PopupConfig, viewport: Size)
    requires Across(config)
    ensures var beside := config.(position := Some(if config.position == Some(Top) then Left else Right));
            var t := GetPosition(TransposeAnchor(anchor), TransposeSize(size), beside, TransposeSize(viewport));
            GetPosition(anchor, size, config, viewport) == Coords(t.left, t.top)
  {
  }

  /**
    A pointer has no extent, so aligning to its start or just after its end
    gives the same coordinate, on whichever axis alignment acts.
   */
  lemma PointerStartIsAfterEnd(evt: PointerEvent, size: Size, config: PopupConfig)
    requires config.position != Some(Unrecognised)
    ensures Unclamped(Pointer(evt), size, config.(alignment := Some(Start)))
         == Unclamped(Pointer(evt), size, config.(alignment := Some(AfterEnd)))
  {
  }

  /**
    A 200x100 popup to the right of a 50x20 anchor at (700, 10) in an
    800x600 viewport, with an 8px arrow padding: `left` would be 758 and is
    pulled back to 600, and the centred `top` of -30 is raised to 0.
   */
  lemma RightEdgeExample()
    ensures GetPosition(Element(Rect(700.0, 10.0, 50.0, 20.0)), Size(200.0, 100.0),
                        PopupConfig(Some(Right), None, None, None, 8.0), Size(800.0, 600.0))
         == Coords(Some(0.0), Some(600.0))
  {
  }
}

=== FILE: js.dfy ===
/**
  The few JavaScript notions the menu library leans on: optional values,
  the values a callback can return or a dialog can close with, and the
  "truthiness" test that every `if (x)` and `x || d` in the library performs.
 */
module Js {

  /** An optional field: `None` is `undefined` (or `null`). */
  datatype Option<+T> = None | Some(value: T)

  /**
    A JavaScript value as far as the library inspects it. Objects are
    identified by an opaque number; NaN is not modelled.
   */
  datatype Value =
    | Undefined
    | Null
    | Bool(b: bool)
    | Number(n: real)
    | Text(s: string)
    | Object(id: nat)

  /** JavaScript's ToBoolean. */
  predicate Truthy(v: Value)
  {
    match v
    case Undefined => false
    case Null => false
    case Bool(b) => b
    case Number(n) => n != 0.0
    case Text(s) => |s| > 0
    case Object(_) => true
  }

  /** `x || d` for an optional number: an absent or zero `x` yields `d`. */
  function NumberOr(x: Option<real>, d: real): (r: real)
    ensures x.Some? && x.value != 0.0 ==> r == x.value
    ensures x.None? ==> r == d
    ensures r == d || (x.Some? && r == x.value)
  {
    if x.Some? && x.value != 0.0 then x.value else d
  }

  /** `!!x` for an optional boolean field. */
  predicate IsSet(x: Option<bool>)
  {
    x == Some(true)
  }
}

=== FILE: menu_types.dfy ===
/**
  The menu-item model. An item is one of three shapes: the bare string
  "separator", a labelled separator object, or a full item (`BaseCtx`) whose
  `separator` flag is absent or false. User callbacks are identified by a
  `CallbackId`; what a callback returns is supplied by the caller of the
  operations that invoke it.
 */
module MenuTypes {
  import opened Js

  /** Identity of a user-supplied callback (`action`, `isDisabled`, ...). */
  type CallbackId = nat

  /** Identity of an opaque renderable template. */
  type TemplateId = nat

  datatype MenuItem =
    | SeparatorLine                   // the string "separator"
    | LabelledSeparator(caption: string) // { label, separator: true }
    | Entry(ctx: BaseCtx)             // a BaseCtx, separator absent or false

  /**
    The fields of a full menu item, followed by the annotations the menu
    component writes onto it (`_formattedLabel`, `_disabled`, `_visible`,
    `_isResolving`).
   */
  datatype BaseCtx = BaseCtx(
    caption: Option<string>,
    icon: Option<string>,
    shortcutLabel: Option<string>,
    link: Option<string>,
    linkTarget: Option<string>,
    action: Option<CallbackId>,
    isDisabled: Option<CallbackId>,
    isVisible: Option<CallbackId>,
    children: Option<seq<MenuItem>>,
    childrenResolver: Option<CallbackId>,
    cacheResolvedChildren: Option<bool>,
    childTemplate: Option<TemplateId>,
    childWidth: Option<real>,
    childHeight: Option<real>,
    formattedLabel: Option<string>,
    disabled: Option<bool>,
    visible: Option<bool>,
    isResolving: Option<bool>
  )

  /** Either kind of separator: activation and annotation skip both. */
  predicate IsSeparator(item: MenuItem)
  {
    item.SeparatorLine? || item.LabelledSeparator?
  }

  /** The row is rendered disabled: `isDisabled` last returned true. */
  predicate ShownDisabled(item: MenuItem)
  {
    item.Entry? && IsSet(item.ctx.disabled)
  }

  /** The row is hidden: `isVisible` last returned false. */
  predicate Hidden(item: MenuItem)
  {
    item.Entry? && item.ctx.visible == Some(false)
  }

  /** An item as written by a caller: none of the annotations is present yet. */
  predicate Unannotated(item: MenuItem)
  {
    item.Entry? ==>
      && item.ctx.formattedLabel.None?
      && item.ctx.disabled.None?
      && item.ctx.visible.None?
      && item.ctx.isResolving.None?
  }

  /** A plain item with a label and nothing else. */
  function Labelled(caption: string): (r: MenuItem)
    ensures r.Entry? && r.ctx.caption == Some(caption) && Unannotated(r)
    ensures r.ctx.children.None? && r.ctx.childTemplate.None? && r.ctx.childrenResolver.None?
  {
    Entry(BaseCtx(Some(caption), None, None, None, None, None, None, None,
                  None, None, None, None, None, None, None, None, None, None))
  }
}

=== FILE: placement.dfy ===
/**
  The "fallback corner" placement used when a popup is opened at a pointer
  position: prefer opening below and to the right of the pointer, and flip an
  axis only when the preferred corner would clip the viewport on that axis.
  The result is a dialog position with four optional edge offsets.
 */
module Placement {
  import opened Js
  import opened Geometry

  /** A dialog position: each edge offset is either set or left `null`. */
  datatype Corner = Corner(top: Option<real>, left: Option<real>, bottom: Option<real>, right: Option<real>)

  /** Exactly one of `top` and `bottom` is set. */
  predicate OneVertical(c: Corner)
  {
    c.top.Some? != c.bottom.Some?
  }

  /** Exactly one of `left` and `right` is set. */
  predicate OneHorizontal(c: Corner)
  {
    c.left.Some? != c.right.Some?
  }

  /**
    The pointer corner rule. `bottom` and `right` are written as pixel
    strings, which are never empty and so always truthy: a flipped axis never
    gets its preferred edge written as well.
   */
  function PointerCorner(clientX: real, clientY: real, size: Size, viewport: Size): (c: Corner)
    ensures OneVertical(c) && OneHorizontal(c)
    ensures c.bottom.Some? <==> clientY + size.height > viewport.height
    ensures c.right.Some? <==> clientX + size.width > viewport.width
    ensures c.top.Some? ==> c.top.value == clientY
    ensures c.left.Some? ==> c.left.value == clientX
    ensures c.bottom.Some? ==> c.bottom.value + clientY == viewport.height
    ensures c.right.Some? ==> c.right.value + clientX == viewport.width
  {
    var bottom := if clientY + size.height > viewport.height then Some(viewport.height - clientY) else None;
    var right := if clientX + size.width > viewport.width then Some(viewport.width - clientX) else None;
    Corner(if bottom.None? then Some(clientY) else None,
           if right.None? then Some(clientX) else None,
           bottom, right)
  }

  /**
    The vertical decision depends neither on the pointer's x nor on the
    popup's width, and the horizontal one neither on y nor on the height.
   */
  lemma PointerCornerAxesIndependent(x1: real, y1: real, s1: Size, x2: real, y2: real, s2: Size, viewport: Size)
    ensures y1 == y2 && s1.height == s2.height ==>
              var c1 := PointerCorner(x1, y1, s1, viewport);
              var c2 := PointerCorner(x2, y2, s2, viewport);
              c1.top == c2.top && c1.bottom == c2.bottom
    ensures x1 == x2 && s1.width == s2.width ==>
              var c1 := PointerCorner(x1, y1, s1, viewport);
              var c2 := PointerCorner(x2, y2, s2, viewport);
              c1.left == c2.left && c1.right == c2.right
  {
  }
}

=== FILE: tooltip.dfy ===
/**
  The tooltip directive: its single input is sorted into a template slot or
  a component slot when it initialises, and on pointer entry the tooltip is
  placed at the pointer with the same fallback corner rule as the context
  menu and shown without a backdrop.
 */
module TooltipDirective {
  import opened Js
  import opened Geometry
  import opened Placement
  import opened MenuTypes
  import opened ContextMenu
  import ContextMenuDirective

  /** Identity of a component class. */
  type ComponentId = nat

  /** The `ngxTooltip` input: text, a template reference, a component class, or nothing. */
  datatype TooltipInput =
    | NoInput
    | TextInput(text: string)
    | TemplateInput(template: TemplateId)
    | ComponentInput(component: ComponentId)

  /** `NgxTooltipOptions`; every field is optional and the default is `{}`. */
  datatype TooltipOptions = TooltipOptions(
    position: Option<Side>,
    alignment: Option<Alignment>,
    showArrow: Option<bool>,
    arrowSize: Option<real>,
    edgePadding: Option<real>
  )

  datatype Directive = Directive(
    template: TooltipInput,
    config: TooltipOptions,
    data: Value,
    tooltipTemplate: Option<TemplateId>,
    tooltipComponent: Option<ComponentId>
  )

  /** What is handed to the dialog service to show the tooltip component. */
  datatype TooltipDialog = TooltipDialog(
    data: Value,
    tooltipTemplate: Option<TemplateId>,
    tooltipComponent: Option<ComponentId>,
    config: TooltipOptions,
    position: Corner,
    hasBackdrop: bool
  )

  /**
    `ngOnInit`: a template reference goes to the template slot and a
    component class to the component slot; text or no input leaves both
    slots as they were.
   */
  function Init(d: Directive): (r: Directive)
    ensures r.template == d.template && r.config == d.config && r.data == d.data
    ensures d.template.TemplateInput? ==>
              r.tooltipTemplate == Some(d.template.template) && r.tooltipComponent == d.tooltipComponent
    ensures d.template.ComponentInput? ==>
              r.tooltipComponent == Some(d.template.component) && r.tooltipTemplate == d.tooltipTemplate
    ensures d.template.NoInput? || d.template.TextInput? ==> r == d
  {
    match d.template
    case TemplateInput(t) => d.(tooltipTemplate := Some(t))
    case ComponentInput(c) => d.(tooltipComponent := Some(c))
    case _ => d
  }

  /**
    `openTooltip`. `bounds` is the tooltip's measured size. The tooltip opens
    below-right of the pointer, flipping an axis only where it would clip.
   */
  function OpenTooltip(tooltipTemplate: Option<TemplateId>, tooltipComponent: Option<ComponentId>, data: Value,
                       evt: PointerEvent, config: TooltipOptions, bounds: Size, viewport: Size): (r: TooltipDialog)
    ensures r.data == data && r.config == config && !r.hasBackdrop
    ensures r.tooltipTemplate == tooltipTemplate && r.tooltipComponent == tooltipComponent
    ensures OneVertical(r.position) && OneHorizontal(r.position)
    ensures r.position.bottom.Some? <==> evt.clientY + bounds.height > viewport.height
    ensures r.position.right.Some? <==> evt.clientX + bounds.width > viewport.width
    ensures r.position.top.Some? ==> r.position.top.value == evt.clientY
    ensures r.position.left.Some? ==> r.position.left.value == evt.clientX
    ensures r.position.bottom.Some? ==> r.position.bottom.value == viewport.height - evt.clientY
    ensures r.position.right.Some? ==> r.position.right.value == viewport.width - evt.clientX
  {
    TooltipDialog(data, tooltipTemplate, tooltipComponent, config,
                  PointerCorner(evt.clientX, evt.clientY, bounds, viewport), false)
  }

  /**
    Pointer entry opens the tooltip with the directive's slots, data and
    config, at the pointer corner for the tooltip's measured size and
    without a backdrop.
   */
  function OnPointerEnter(d: Directive, evt: PointerEvent, bounds: Size, viewport: Size): (r: TooltipDialog)
    ensures r.tooltipTemplate == d.tooltipTemplate && r.tooltipComponent == d.tooltipComponent
    ensures r.data == d.data && r.config == d.config && !r.hasBackdrop
    ensures r.position == PointerCorner(evt.clientX, evt.clientY, bounds, viewport)
    ensures OneVertical(r.position) && OneHorizontal(r.position)
    ensures r.position.bottom.Some? <==> evt.clientY + bounds.height > viewport.height
    ensures r.position.right.Some? <==> evt.clientX + bounds.width > viewport.width
  {
    OpenTooltip(d.tooltipTemplate, d.tooltipComponent, d.data, evt, d.config, bounds, viewport)
  }

  /**
    For the same pointer and the same size, a tooltip is placed exactly
    where the context menu would be whenever the context menu opens.
   */
  lemma TooltipPlacedLikeContextMenu(menu: ContextMenuDirective.Directive, measuredWidth: real,
                                     tooltipTemplate: Option<TemplateId>, tooltipComponent: Option<ComponentId>,
                                     data: Value, config: TooltipOptions, bounds: Size,
                                     evt: PointerEvent, viewport: Size)
    requires bounds == Size(measuredWidth, MenuHeight(menu.menuItems) as real)
    ensures !BoundsThrow(menu.menuItems) ==>
              && ContextMenuDirective.OnContextMenu(menu, evt, viewport, measuredWidth).Some?
              && OpenTooltip(tooltipTemplate, tooltipComponent, data, evt, config, bounds, viewport).position
                 == ContextMenuDirective.OnContextMenu(menu, evt, viewport, measuredWidth).value.position
  {
  }
}
